=== FILE: README.md ===
# Local storage provider, modelled in Dafny

This project models `LocalStorageProvider`, the one implementation of the `StorageProvider`
interface of the storage-provider library. The provider keeps named byte blobs ("files") in a
configured root directory. It turns every logical name into a storage key by sanitizing it. It
refuses to clobber an existing blob unless it is configured to overwrite. It moves bytes with a
4096-byte buffered copy loop that can report progress after every chunk.

There is no real I/O in the model:

- **The root directory** is a `map<string, Bytes>` (`LocalStorage.Blobs`) from storage key to blob bytes.
- **Paths outside the root** (save sources, download destinations) are a second map (`LocalStorage.Files`).
- **An input stream** is a `StreamCopy.Source`: the list of byte runs its successive `read(buffer)` calls deliver. `WellFormed` is the `InputStream` contract for a 4096-byte buffer: every read before the end delivers between 1 and 4096 bytes.
- **A file on disk** is read by the buffer in full 4096-byte runs plus a final remainder (`StreamCopy.FileSource`).
- **A progress callback** is the list of `Report(done, total)` values it receives.
- **The interface's overloads** collapse into single operations. The target name is an `Option`. A `Progress` argument is either `Silent` or `Notify(total)`, where `total` carries the stream's `available()` estimate.
- **The platform separator** (`File.separatorChar`) is a parameter of `saveFile`.
- **Exceptions** become `Outcomes.Result` / `Outcomes.Outcome` values:
  - `NotFound` models `FileNotFoundException`.
  - `AlreadyExists` models the `IOException` the code throws when a target exists.
  - `InvalidConfiguration` models the `IOException` the constructor throws when the root is a file.

Modules:

- `Outcomes` (outcomes.dfy): the error and result types.
- `Names` (names.dfy): `cleanupName` and the default name of `saveFile(path)`.
- `StreamCopy` (copy.dfy): the copy loops, with and without progress, proved against a reference definition of the progress reports.
- `LocalStorage` (storage.dfy): configuration, constructor, `fileExists`, the save and download operations, and the lemmas that relate them.

Operations map to the interface as follows:

- `fileExists` → `FileExists`
- `saveFile` (4 overloads) → `SaveFile`
- `saveStream` (2) → `SaveStream`
- `downloadFile` (2) → `DownloadFile`
- `downloadStream(name, …)` (2) → `DownloadStream`
- `downloadStream(inputStream, outputStream, …)` (2) → `CopyBetweenStreams`

The model follows what the code does, including where that departs from the evident intent, with one exception (the last item below):

- A space is not kept as `_`. The code first replaces it with `_`, then deletes every character outside `[a-zA-Z0-9.]`, and that deletes the `_` too. So `"My File.txt"` becomes `"MyFile.txt"`, not `"My_File.txt"`.
- An empty source produces no progress callback at all, not a single `(0, total)` call.
- The code does not remove `..`. Dots are allowed characters, so `".."` survives sanitization.
- A key of `""`, `"."` or `".."` makes `File(root, key)` the root or its parent, not an entry under the root. The main operations (`FileExists`, `SaveStream`, `SaveFile`, `DownloadStream`, `DownloadFile`) use the corrected resolution, where every key is a blob of the flat root. The code's resolution is modelled separately (`ResolveAsWritten`, `FileExistsAsWritten`, `SaveStreamAsWritten`, `DownloadStreamAsWritten`), with lemmas that say where the two agree and where they differ (see Findings).

## Model

| member | source | states |
|---|---|---|
| Names.CleanupName | src/main/kotlin/blog/davetheitguy/storageprovider/local/LocalStorageProvider.kt:26-32 | every character of a key is in [A-Za-z0-9.]; a key never holds a space, an underscore, '/' or '\\'; it is never longer than the name |
| Names.CleanupKeepsAllowed | src/main/kotlin/blog/davetheitguy/storageprovider/local/LocalStorageProvider.kt:28-29 | the two-pass sanitizer equals a single filter of the name's allowed characters in their original order, so the space-to-underscore pass has no effect on the key |
| Names.CleanupMembership | src/main/kotlin/blog/davetheitguy/storageprovider/local/LocalStorageProvider.kt:28-29 | a character occurs in the key if and only if it occurs in the name and is allowed |
| Names.CleanupAppend | src/main/kotlin/blog/davetheitguy/storageprovider/local/LocalStorageProvider.kt:28-29 | the key of a concatenation is the concatenation of the keys, so relative order is preserved |
| Names.CleanupFixedPoint | src/main/kotlin/blog/davetheitguy/storageprovider/local/LocalStorageProvider.kt:28-29 | a name is its own key if and only if all its characters are allowed |
| Names.CleanupIdempotent | src/main/kotlin/blog/davetheitguy/storageprovider/local/LocalStorageProvider.kt:26-32 | sanitizing a key again returns it unchanged |
| Names.CleanupIgnoresDisallowed | src/main/kotlin/blog/davetheitguy/storageprovider/local/LocalStorageProvider.kt:26-36 | inserting any run of disallowed characters into a name leaves its key (and so its file) unchanged: distinct names collide |
| Names.CleanupDropsSpace | src/main/kotlin/blog/davetheitguy/storageprovider/local/LocalStorageProvider.kt:29 | a space is removed, not kept as '_': a+" "+b, a+"_"+b and a+b share one key |
| Names.CleanupMyFile | src/main/kotlin/blog/davetheitguy/storageprovider/local/LocalStorageProvider.kt:29 | "My File.txt" is stored under "MyFile.txt" |
| Names.CleanupCollides | src/main/kotlin/blog/davetheitguy/storageprovider/local/LocalStorageProvider.kt:26-36 | "a b", "a_b", "a!b" and "ab" all resolve to the key "ab" |
| Names.LastIndexOf | src/main/kotlin/blog/davetheitguy/storageprovider/local/LocalStorageProvider.kt:47 | String.lastIndexOf: -1 or an index holding the character, with no occurrence after it |
| Names.DefaultName | src/main/kotlin/blog/davetheitguy/storageprovider/local/LocalStorageProvider.kt:46-50 | the default name is a suffix of the path without the separator, preceded by a separator, or the whole path when it has none |
| Names.DefaultNameOfJoin | src/main/kotlin/blog/davetheitguy/storageprovider/local/LocalStorageProvider.kt:74-77 | the default name of dir + separator + file is file, for any file name without a separator |
| StreamCopy.CopyStream | src/main/kotlin/blog/davetheitguy/storageprovider/local/LocalStorageProvider.kt:119-126 | the loop without progress writes exactly the stream's bytes, in order, for any number of chunks, including none |
| StreamCopy.CopyStreamWithProgress | src/main/kotlin/blog/davetheitguy/storageprovider/local/LocalStorageProvider.kt:142-153 | the loop with progress writes exactly the stream's bytes; it calls back once per chunk with strictly increasing counts, the same total every time and a last count equal to the bytes written; it never calls back for an empty stream |
| StreamCopy.ProgressReportsShape | src/main/kotlin/blog/davetheitguy/storageprovider/local/LocalStorageProvider.kt:91-101 | the reference reports have one entry per chunk, the fixed total, strictly increasing counts and a last count equal to the stream length; there are none exactly when the stream is empty |
| StreamCopy.ProgressReportsStep | src/main/kotlin/blog/davetheitguy/storageprovider/local/LocalStorageProvider.kt:97-99 | each report's count exceeds the previous one by the size of the chunk just written |
| StreamCopy.ProgressReportsPair | src/main/kotlin/blog/davetheitguy/storageprovider/local/LocalStorageProvider.kt:147-150 | of any two reports of a well-formed stream, the later one counts more bytes |
| StreamCopy.ProgressReportsEnd | src/main/kotlin/blog/davetheitguy/storageprovider/local/LocalStorageProvider.kt:96-101 | the last report counts the whole stream, and an empty stream yields no report |
| StreamCopy.FileSource | src/main/kotlin/blog/davetheitguy/storageprovider/local/LocalStorageProvider.kt:53-56 | a file read through the 4096-byte buffer yields well-formed chunks that reassemble to its bytes, ceil(n/4096) of them |
| LocalStorage.NewProvider | src/main/kotlin/blog/davetheitguy/storageprovider/local/LocalStorageProvider.kt:21-24 | construction succeeds exactly when the root exists and is not a regular file (a directory or a special file such as a device); a missing root gives NotFound and a root that is a regular file gives InvalidConfiguration; the provider keeps the configured path and overwrite flag |
| LocalStorage.CopyBetweenStreams | src/main/kotlin/blog/davetheitguy/storageprovider/local/LocalStorageProvider.kt:119-153 | stream-to-stream download, with or without progress, computes exactly the reference transfer: the stream's bytes, plus the reference reports when progress is requested |
| LocalStorage.SaveStream | src/main/kotlin/blog/davetheitguy/storageprovider/local/LocalStorageProvider.kt:60-72 | the save fails if and only if the key exists and overwrite is off, and then with AlreadyExists; on success the key holds exactly the stream's bytes, any earlier blob there is discarded, no other key changes and fileExists(name) holds |
| LocalStorage.SaveFile | src/main/kotlin/blog/davetheitguy/storageprovider/local/LocalStorageProvider.kt:52-85 | a missing source path gives NotFound and nothing is stored; otherwise the file's bytes are stored under the key of the given or default name, with the same AlreadyExists rule, and the progress callbacks are those of reading the file through the buffer |
| LocalStorage.DownloadStream | src/main/kotlin/blog/davetheitguy/storageprovider/local/LocalStorageProvider.kt:112-117 | the download fails if and only if fileExists(name) is false, and then with NotFound; otherwise the sink receives exactly the blob's bytes |
| LocalStorage.DownloadFile | src/main/kotlin/blog/davetheitguy/storageprovider/local/LocalStorageProvider.kt:105-133 | an existing destination gives AlreadyExists whatever the source, with nothing changed; otherwise the destination is created first, so a missing source gives NotFound and leaves it empty; else it holds the blob's bytes; a failed download makes no progress callback, and a successful one makes those of reading the blob through the buffer |
| LocalStorage.SaveThenDownload | src/main/kotlin/blog/davetheitguy/storageprovider/local/LocalStorageProvider.kt:60-72 | after a successful save, fileExists holds and a download returns the saved bytes, under the same name or under any name with the same key |
| LocalStorage.SaveTwice | src/main/kotlin/blog/davetheitguy/storageprovider/local/LocalStorageProvider.kt:60-63 | a second save to the same key fails with AlreadyExists when overwrite is off; when it is on, the root afterwards differs from the original only by holding the second payload under the key |
| LocalStorage.SaveFileThenDownloadFile | src/main/kotlin/blog/davetheitguy/storageprovider/local/LocalStorageProvider.kt:46-58 | saving dir/file without a name and then downloading the name file to a fresh destination reproduces the original file's bytes there |
| LocalStorage.SaveStreamProgress | src/main/kotlin/blog/davetheitguy/storageprovider/local/LocalStorageProvider.kt:87-103 | a save with progress reports once per chunk, with strictly increasing counts and a constant total; the last count is the stored blob's size; an empty source gets no report |
| LocalStorage.DownloadStreamProgress | src/main/kotlin/blog/davetheitguy/storageprovider/local/LocalStorageProvider.kt:135-153 | a download with progress reports ceil(n/4096) times for an n-byte blob, with strictly increasing counts ending at n and a constant total; an empty blob gets no report |
| LocalStorage.ResolveAsWritten | src/main/kotlin/blog/davetheitguy/storageprovider/local/LocalStorageProvider.kt:34-36 | File(root, key) names a child of the root only when the key is not "", "." or ".."; those three keys name the root or its parent |
| LocalStorage.DotKeysEscapeRoot | src/main/kotlin/blog/davetheitguy/storageprovider/local/LocalStorageProvider.kt:34-44 | as written, ".." and "../" resolve to the parent of the root and "!?" resolves to the root itself, and fileExists reports ".." and "" present in an empty root |
| LocalStorage.FileExists | src/main/kotlin/blog/davetheitguy/storageprovider/local/LocalStorageProvider.kt:38-44 | fileExists is false for every name in an empty root; it never reports a name the code's resolution would not, and agrees with it whenever the name resolves to a child of the root |
| LocalStorage.FileExistsAsWritten | src/main/kotlin/blog/davetheitguy/storageprovider/local/LocalStorageProvider.kt:38-44 | the code's fileExists: File.exists() on the resolved location, true for every name whose key is "", "." or ".." whatever is stored, otherwise true exactly when a blob is stored under the key |
| LocalStorage.DotRootRefusesDotKeys | src/main/kotlin/blog/davetheitguy/storageprovider/local/LocalStorageProvider.kt:60-63 | with the root "." or "./" every save under a key of "", "." or ".." fails with AlreadyExists, even with overwrite on and nothing stored |
| LocalStorage.RootRemovableTrailing | src/main/kotlin/blog/davetheitguy/storageprovider/local/LocalStorageProvider.kt:17 | a trailing separator on the configured root, which java.io.File drops, does not change whether delete() can remove it |
| LocalStorage.RootDot | src/main/kotlin/blog/davetheitguy/storageprovider/local/LocalStorageProvider.kt:60-63 | the root "." (as the tests configure it) and "./" cannot be removed by delete() |
| LocalStorage.RootSlash | src/main/kotlin/blog/davetheitguy/storageprovider/local/LocalStorageProvider.kt:60-63 | the filesystem root "/", also spelt "//", cannot be removed by delete() |
| LocalStorage.RootParent | src/main/kotlin/blog/davetheitguy/storageprovider/local/LocalStorageProvider.kt:60-63 | any root ending in the segment "..", with or without a trailing separator, cannot be removed by delete() |
| LocalStorage.RootData | src/main/kotlin/blog/davetheitguy/storageprovider/local/LocalStorageProvider.kt:60-63 | an ordinary root such as "data/" can be removed by delete() once empty |
| LocalStorage.SaveFileProgress | src/main/kotlin/blog/davetheitguy/storageprovider/local/LocalStorageProvider.kt:74-85 | saveFile with progress reports ceil(n/4096) times for an n-byte file, with strictly increasing counts ending at n and a constant total; an empty file gets no report |
| LocalStorage.SaveStreamAsWritten | src/main/kotlin/blog/davetheitguy/storageprovider/local/LocalStorageProvider.kt:60-72 | the code's save: a failure is always AlreadyExists, and without overwrite a name resolving to the root or its parent always fails |
| LocalStorage.DownloadStreamAsWritten | src/main/kotlin/blog/davetheitguy/storageprovider/local/LocalStorageProvider.kt:112-117 | the code's download: a name resolving to the root or its parent always gives NotFound, because fileExists is true but a directory cannot be opened for reading |
| LocalStorage.DotKeysRefuseSave | src/main/kotlin/blog/davetheitguy/storageprovider/local/LocalStorageProvider.kt:60-63 | as written, a save under a key of "", "." or ".." succeeds only with overwrite on, an empty root, the key "" and a root path rmdir can remove (once trailing separators are dropped, not "/" and not ending in "." or ".."), and then it replaces the root by a file holding the stream; every other such save fails with AlreadyExists, while the model's save into an empty root succeeds |
| LocalStorage.SaveFileTrailingSeparator | src/main/kotlin/blog/davetheitguy/storageprovider/local/LocalStorageProvider.kt:46-50 | saveFile on a path ending in the separator derives the empty name, which as written resolves to the root itself |
| LocalStorage.CorrectedFileExists | src/main/kotlin/blog/davetheitguy/storageprovider/local/LocalStorageProvider.kt:38-44 | the corrected fileExists and download agree with the code wherever the name resolves to a child of the root; the corrected fileExists implies the code's; an empty root holds nothing and a download from it gives NotFound |
| LocalStorage.CorrectedSaveStream | src/main/kotlin/blog/davetheitguy/storageprovider/local/LocalStorageProvider.kt:60-72 | the corrected save gives the same result as the code's wherever the name resolves to a child of the root; without overwrite it succeeds exactly when fileExists(name) is false |

## Left out

- Spring annotations and wiring (`@Service`, `@ConditionalOnMissingBean`, `@ConfigurationProperties`) are framework glue. `LocalStorageConfig` is the plain datatype `LocalStorageConfig(storagePath, overwrite)`.
- `StorageProvider.kt` holds signatures only. Its thirteen overloads become the six operations listed above.
- SLF4J logging calls are observability only, and `close()` is a no-op.
- `InputStream.available()` is modelled as the arbitrary number carried by `Notify(total)`. The save loop samples it before the first read; the download loop samples it after. That ordering makes no difference once the value is a free parameter.
- The `Int` byte counters are unbounded naturals. The model does not show what happens when a transfer of 2 GiB or more overflows them.
- java.io faults are not modelled: a failed `delete()`, disk-full or permission errors, and read or write exceptions. So the truncated blob a failed write leaves behind is not modelled either.
- An exception thrown by the progress callback, which aborts the transfer, is not modelled.
- Source paths that are directories are not modelled: outside paths hold files only. Outside paths that alias files inside the root are not modelled either.
- FileSource: a file is assumed to be read in full 4096-byte chunks. A file stream may legally return shorter reads; that changes the number of progress reports and their intermediate counts, but not the bytes transferred or the last count.
- CopyBetweenStreams: requires a well-formed source. That is the `InputStream` contract the progress property relies on; a read of 0 bytes would make the code report the same count twice.
- Concurrent callers are not modelled; the code promises nothing about them.
- The tests that hard-code Windows paths (`C:\Users\...`) depend on the machine they run on; of what they exercise, only the NotFound rule of `saveFile` is modelled.
- Keys are compared exactly. On a case-insensitive filesystem (the default on Windows and macOS), `"a.txt"` and `"A.txt"` are one file, so `fileExists("A.txt")` is then true after saving `"a.txt"` and a second save without overwrite throws; the model treats them as two blobs.
- NewProvider: accepts a special file (device, FIFO, socket) as the root, as the code does, but the operations on such a provider are not modelled; they assume the root is a directory.
- LocalStorage.FileExists: uses the corrected resolution, so a key of "", "." or ".." is an ordinary blob; the code's behaviour is FileExistsAsWritten.
- LocalStorage.SaveStream: uses the corrected resolution; as written a key of "", "." or ".." refuses the save or replaces the root (SaveStreamAsWritten, DotKeysRefuseSave).
- LocalStorage.SaveFile: saves through the corrected SaveStream, so a path ending in the separator (default name "") stores a blob under the key "" instead of reaching the root itself (SaveFileTrailingSeparator).
- LocalStorage.DownloadStream: uses the corrected resolution; as written a key of "", "." or ".." gives NotFound (DownloadStreamAsWritten).
- LocalStorage.DownloadFile: downloads through the corrected DownloadStream; as written a source whose key is "", "." or ".." gives NotFound after the destination is created.
- LocalStorage.RootRemovable: reads the root path with '/' as the separator, dropping trailing separators as java.io.File does; Windows paths, mount points (also busy for rmdir) and permission failures of delete() are not modelled.
- After a delete, a save writes the new blob as a map update. The brief window in which the key is absent is not observable in a single-caller model.

## Findings

| source | as written | input that shows it | evidently intended | confidence | as-written member | corrected member |
|---|---|---|---|---|---|---|
| src/main/kotlin/blog/davetheitguy/storageprovider/local/LocalStorageProvider.kt:34-44 | `File(root, cleanupName(name))` with a key of "" or "." is the root directory itself, and with ".." it is the root's parent; both exist, so `fileExists` returns true with no blob stored, and a save under such a name without overwrite throws "exists" even into an empty root | `fileExists("..")`, `fileExists("../")` or `fileExists("!?")` on an empty root | every key names an entry directly under the root, and `fileExists` is true only for a stored blob | medium, not executed | LocalStorage.DotKeysEscapeRoot, LocalStorage.DotKeysRefuseSave | LocalStorage.CorrectedFileExists, LocalStorage.CorrectedSaveStream |

=== FILE: copy.dfy ===
/** The buffered copy loop that every transfer of the local provider runs: read into a
    4096-byte buffer until read returns -1, write each run that was read and, in the
    progress variants, report the running byte count after every write. */
module StreamCopy {

  newtype uint8 = x: int | 0 <= x < 0x100

  type Bytes = seq<uint8>

  /** Size of the copy buffer (ByteArray(4096)). */
  const BufferSize: nat := 4096

  /** What InputStream.read returns once the stream is exhausted. */
  const EndOfStream: int := -1

  /** An input stream, as the runs of bytes its successive read(buffer) calls deliver. */
  datatype Source = Source(chunks: seq<Bytes>)

  /** The InputStream contract for a 4096-byte buffer: every read before the end of the
      stream delivers at least one and at most 4096 bytes. */
  predicate WellFormed(src: Source) {
    forall i :: 0 <= i < |src.chunks| ==> 0 < |src.chunks[i]| <= BufferSize
  }

  function Concat(chunks: seq<Bytes>): Bytes {
    if |chunks| == 0 then [] else chunks[0] + Concat(chunks[1..])
  }

  /** All the bytes the stream delivers, in order. */
  function Contents(src: Source): Bytes {
    Concat(src.chunks)
  }

  /** The value of the i-th call of read(buffer): the size of the i-th run, or -1. */
  function ReadAt(src: Source, i: nat): int {
    if i < |src.chunks| then |src.chunks[i]| else EndOfStream
  }

  /** One progress callback invocation: progress(done, total). */
  datatype Report = Report(done: nat, total: nat)

  /** Reference definition of the callbacks of one transfer: one per run read, carrying
      the number of bytes copied up to and including that run and the fixed total. */
  function ProgressReports(src: Source, total: nat): seq<Report> {
    seq(|src.chunks|, k requires 0 <= k < |src.chunks| => Report(|Concat(src.chunks[..k + 1])|, total))
  }

  /** The done counts strictly increase from one callback to the next. */
  predicate StrictlyIncreasing(reports: seq<Report>) {
    forall j, k :: 0 <= j < k < |reports| ==> reports[j].done < reports[k].done
  }

  lemma {:induction false} ConcatAppend(a: seq<Bytes>, b: seq<Bytes>)
    ensures Concat(a + b) == Concat(a) + Concat(b)
  {
    if |a| == 0 {
      assert a + b == b;
    } else {
      assert (a + b)[0] == a[0];
      assert (a + b)[1..] == a[1..] + b;
      ConcatAppend(a[1..], b);
    }
  }

  /** Appending one run to a prefix of the runs appends its bytes. */
  lemma ConcatPrefixStep(chunks: seq<Bytes>, i: nat)
    requires i < |chunks|
    ensures Concat(chunks[..i + 1]) == Concat(chunks[..i]) + chunks[i]
  {
    assert chunks[..i + 1] == chunks[..i] + [chunks[i]];
    ConcatAppend(chunks[..i], [chunks[i]]);
    assert Concat([chunks[i]]) == chunks[i] + Concat([]);
  }

  /** Runs of a well-formed stream are non-empty, so n runs hold at least n bytes. */
  lemma {:induction false} ConcatAtLeastCount(chunks: seq<Bytes>)
    requires forall i :: 0 <= i < |chunks| ==> 0 < |chunks[i]|
    ensures |Concat(chunks)| >= |chunks|
  {
    if |chunks| > 0 {
      ConcatAtLeastCount(chunks[1..]);
    }
  }

  /** Each callback advances the count by the size of the run just written. */
  lemma ProgressReportsStep(src: Source, total: nat, k: nat)
    requires 0 < k < |src.chunks|
    ensures ProgressReports(src, total)[k].done == ProgressReports(src, total)[k - 1].done + |src.chunks[k]|
  {
    ConcatPrefixStep(src.chunks, k);
  }

  /** Of two callbacks of a well-formed stream, the later reports more bytes. */
  lemma ProgressReportsPair(src: Source, total: nat, j: nat, k: nat)
    requires WellFormed(src)
    requires j < k < |src.chunks|
    ensures ProgressReports(src, total)[j].done < ProgressReports(src, total)[k].done
  {
    var cs := src.chunks;
    assert cs[..k + 1] == cs[..j + 1] + cs[j + 1..k + 1];
    ConcatAppend(cs[..j + 1], cs[j + 1..k + 1]);
    ConcatAtLeastCount(cs[j + 1..k + 1]);
  }

  /** The last callback reports the whole stream, and there is none for an empty one. */
  lemma ProgressReportsEnd(src: Source, total: nat)
    requires WellFormed(src)
    ensures |src.chunks| > 0 ==> ProgressReports(src, total)[|src.chunks| - 1].done == |Contents(src)|
    ensures ProgressReports(src, total) == [] <==> Contents(src) == []
  {
    var cs := src.chunks;
    if |cs| > 0 {
      assert cs[..|cs|] == cs;
      ConcatAtLeastCount(cs);
    }
  }

  /** The progress reports of a well-formed stream: one per run, each carrying the fixed
      total, strictly increasing, the last one equal to the whole stream, and none at
      all for an empty stream. */
  lemma ProgressReportsShape(src: Source, total: nat)
    requires WellFormed(src)
    ensures |ProgressReports(src, total)| == |src.chunks|
    ensures forall k :: 0 <= k < |src.chunks| ==> ProgressReports(src, total)[k].total == total
    ensures StrictlyIncreasing(ProgressReports(src, total))
    ensures |src.chunks| > 0 ==> ProgressReports(src, total)[|src.chunks| - 1].done == |Contents(src)|
    ensures ProgressReports(src, total) == [] <==> Contents(src) == []
  {
    var rs := ProgressReports(src, total);
    forall j, k | 0 <= j < k < |rs|
      ensures rs[j].done < rs[k].done
    {
      ProgressReportsPair(src, total, j, k);
    }
    ProgressReportsEnd(src, total);
  }

  /** downloadStream(inputStream, outputStream): the copy loop without progress. The
      sink receives exactly the stream's bytes, in order. */
  method CopyStream(src: Source) returns (written: Bytes)
    ensures written == Contents(src)
  {
    written := [];
    var i := 0;
    var read := ReadAt(src, i);
    while read != EndOfStream
      invariant 0 <= i <= |src.chunks|
      invariant read == ReadAt(src, i)
      invariant written == Concat(src.chunks[..i])
      decreases |src.chunks| - i
    {
      var buffer := src.chunks[i];
      ConcatPrefixStep(src.chunks, i);
      written := written + buffer[..read];
      i := i + 1;
      read := ReadAt(src, i);
    }
    assert src.chunks[..i] == src.chunks;
  }

  /** downloadStream(inputStream, outputStream, progress): the copy loop with a callback
      after every write. `total` is the stream's available() estimate, an arbitrary
      number as far as the loop is concerned. */
  method CopyStreamWithProgress(src: Source, total: nat) returns (written: Bytes, reports: seq<Report>)
    requires WellFormed(src)
    ensures written == Contents(src)
    ensures reports == ProgressReports(src, total)
    ensures |reports| == |src.chunks|
    ensures StrictlyIncreasing(reports)
    ensures forall k :: 0 <= k < |reports| ==> reports[k].total == total
    ensures |reports| > 0 ==> reports[|reports| - 1].done == |written|
    ensures reports == [] <==> written == []
  {
    written := [];
    reports := [];
    var i := 0;
    var totalRead := 0;
    var read := ReadAt(src, i);
    while read != EndOfStream
      invariant 0 <= i <= |src.chunks|
      invariant read == ReadAt(src, i)
      invariant written == Concat(src.chunks[..i])
      invariant totalRead == |written|
      invariant reports == ProgressReports(src, total)[..i]
      decreases |src.chunks| - i
    {
      var buffer := src.chunks[i];
      ConcatPrefixStep(src.chunks, i);
      totalRead := totalRead + read;
      written := written + buffer[..read];
      reports := reports + [Report(totalRead, total)];
      i := i + 1;
      read := ReadAt(src, i);
    }
    assert src.chunks[..i] == src.chunks;
    ProgressReportsShape(src, total);
  }

  /** How a file on disk is read through a 4096-byte buffer: every read fills the buffer
      except the last, which delivers what remains. */
  function FileSource(data: Bytes): (src: Source)
    ensures WellFormed(src)
    ensures Contents(src) == data
    ensures |src.chunks| == (|data| + BufferSize - 1) / BufferSize
    decreases |data|
  {
    if |data| == 0 then Source([])
    else if |data| <= BufferSize then
      assert Concat([data]) == data + Concat([]);
      Source([data])
    else
      var rest := FileSource(data[BufferSize..]);
      assert data == data[..BufferSize] + data[BufferSize..];
      Source([data[..BufferSize]] + rest.chunks)
  }
}

=== FILE: names.dfy ===
/** Name handling of the local provider: the sanitizer that turns a logical name
    into a storage key, and the default name that `saveFile(path)` derives. */
module Names {

  /** A character that survives sanitization: an ASCII letter, an ASCII digit or a dot. */
  predicate IsAllowed(c: char) {
    ('a' <= c <= 'z') || ('A' <= c <= 'Z') || ('0' <= c <= '9') || c == '.'
  }

  /** Every character of `s` is allowed in a storage key. */
  predicate AllAllowed(s: string) {
    forall i :: 0 <= i < |s| ==> IsAllowed(s[i])
  }

  /** First pass of the sanitizer: every space becomes an underscore. */
  function ReplaceSpaces(s: string): string
  {
    seq(|s|, i requires 0 <= i < |s| => if s[i] == ' ' then '_' else s[i])
  }

  /** Second pass of the sanitizer: delete every character outside [a-zA-Z0-9.].
      Applied to a raw name, this is also the reference definition of a key: the
      allowed characters of the name, in their original order. */
  function DeleteDisallowed(s: string): string
  {
    if |s| == 0 then []
    else if IsAllowed(s[0]) then [s[0]] + DeleteDisallowed(s[1..])
    else DeleteDisallowed(s[1..])
  }

  /** Filtering never lengthens a string and leaves only allowed characters. */
  lemma {:induction false} DeleteDisallowedAlphabet(s: string)
    ensures |DeleteDisallowed(s)| <= |s|
    ensures AllAllowed(DeleteDisallowed(s))
  {
    if |s| > 0 {
      DeleteDisallowedAlphabet(s[1..]);
    }
  }

  /** The storage key of a logical name: spaces replaced by '_', then everything outside
      [a-zA-Z0-9.] deleted, the underscores just produced included. The key can never
      contain a space, an underscore or a path separator. */
  function CleanupName(name: string): (key: string)
    ensures |key| <= |name|
    ensures AllAllowed(key)
    ensures ' ' !in key && '_' !in key && '/' !in key && '\\' !in key
  {
    DeleteDisallowedAlphabet(ReplaceSpaces(name));
    DeleteDisallowed(ReplaceSpaces(name))
  }

  /** The space pass has no effect on the key: sanitizing a name keeps exactly its
      allowed characters, in their original order. */
  lemma {:induction false} CleanupKeepsAllowed(name: string)
    ensures CleanupName(name) == DeleteDisallowed(name)
  {
    if |name| > 0 {
      var r := ReplaceSpaces(name);
      assert r[1..] == ReplaceSpaces(name[1..]);
      CleanupKeepsAllowed(name[1..]);
    }
  }

  /** A character occurs in the filtered string exactly when it occurs in the input and is allowed. */
  lemma {:induction false} DeleteDisallowedMembership(s: string, c: char)
    ensures c in DeleteDisallowed(s) <==> c in s && IsAllowed(c)
  {
    if |s| > 0 {
      DeleteDisallowedMembership(s[1..], c);
      assert s == [s[0]] + s[1..];
    }
  }

  /** Filtering distributes over concatenation, so relative order is kept. */
  lemma {:induction false} DeleteDisallowedAppend(a: string, b: string)
    ensures DeleteDisallowed(a + b) == DeleteDisallowed(a) + DeleteDisallowed(b)
  {
    if |a| == 0 {
      assert a + b == b;
    } else {
      assert (a + b)[0] == a[0];
      assert (a + b)[1..] == a[1..] + b;
      DeleteDisallowedAppend(a[1..], b);
    }
  }

  /** A string all of whose characters are allowed is left as it is. */
  lemma {:induction false} DeleteDisallowedFixes(s: string)
    requires AllAllowed(s)
    ensures DeleteDisallowed(s) == s
  {
    if |s| > 0 {
      DeleteDisallowedFixes(s[1..]);
      assert s == [s[0]] + s[1..];
    }
  }

  /** A name keeps its key exactly when it contains only allowed characters. */
  lemma CleanupFixedPoint(name: string)
    ensures CleanupName(name) == name <==> AllAllowed(name)
  {
    CleanupKeepsAllowed(name);
    if AllAllowed(name) {
      DeleteDisallowedFixes(name);
    }
  }

  /** Sanitizing a key again changes nothing. */
  lemma CleanupIdempotent(name: string)
    ensures CleanupName(CleanupName(name)) == CleanupName(name)
  {
    CleanupFixedPoint(CleanupName(name));
  }

  /** The characters of the key are exactly the allowed characters of the name. */
  lemma CleanupMembership(name: string, c: char)
    ensures c in CleanupName(name) <==> c in name && IsAllowed(c)
  {
    CleanupKeepsAllowed(name);
    DeleteDisallowedMembership(name, c);
  }

  /** Sanitizing a concatenation sanitizes each part, in order. */
  lemma CleanupAppend(a: string, b: string)
    ensures CleanupName(a + b) == CleanupName(a) + CleanupName(b)
  {
    CleanupKeepsAllowed(a + b);
    CleanupKeepsAllowed(a);
    CleanupKeepsAllowed(b);
    DeleteDisallowedAppend(a, b);
  }

  /** Deleting a run of disallowed characters from a name does not change its key, so
      names that differ only in such characters collide. */
  lemma CleanupIgnoresDisallowed(a: string, junk: string, b: string)
    requires forall c :: c in junk ==> !IsAllowed(c)
    ensures CleanupName(a + junk + b) == CleanupName(a + b)
  {
    assert DeleteDisallowed(junk) == [] by {
      DeleteDisallowedAlphabet(junk);
      if |DeleteDisallowed(junk)| > 0 {
        var c := DeleteDisallowed(junk)[0];
        DeleteDisallowedMembership(junk, c);
        assert false;
      }
    }
    CleanupAppend(a + junk, b);
    CleanupAppend(a, junk);
    CleanupAppend(a, b);
    CleanupKeepsAllowed(junk);
  }

  /** In particular a space is dropped rather than kept as an underscore. */
  lemma CleanupDropsSpace(a: string, b: string)
    ensures CleanupName(a + " " + b) == CleanupName(a + b)
    ensures CleanupName(a + " " + b) == CleanupName(a + "_" + b)
  {
    CleanupIgnoresDisallowed(a, " ", b);
    CleanupIgnoresDisallowed(a, "_", b);
  }

  lemma MyFileIsAKey()
    ensures CleanupName("MyFile.txt") == "MyFile.txt"
  {
    CleanupFixedPoint("MyFile.txt");
  }

  /** "My File.txt" is stored as "MyFile.txt", not as "My_File.txt". */
  lemma CleanupMyFile()
    ensures CleanupName("My File.txt") == "MyFile.txt"
  {
    CleanupDropsSpace("My", "File.txt");
    assert "My" + " " + "File.txt" == "My File.txt";
    assert "My" + "File.txt" == "MyFile.txt";
    MyFileIsAKey();
  }

  /** A short concrete instance: four distinct names share the key "ab". */
  lemma CleanupCollides()
    ensures CleanupName("a b") == "ab" && CleanupName("a_b") == "ab"
    ensures CleanupName("a!b") == "ab" && CleanupName("ab") == "ab"
  {
  }

  /** Index of the last occurrence of `c` in `s`, or -1 (String.lastIndexOf). */
  function LastIndexOf(s: string, c: char): (i: int)
    ensures -1 <= i < |s|
    ensures i >= 0 ==> s[i] == c
    ensures forall j :: i < j < |s| ==> s[j] != c
    decreases |s|
  {
    if |s| == 0 then -1
    else if s[|s| - 1] == c then |s| - 1
    else LastIndexOf(s[..|s| - 1], c)
  }

  /** The name `saveFile(path)` stores under: the part of the path after its last
      separator (the whole path when it has none). The separator is a parameter
      because File.separatorChar depends on the platform. */
  function DefaultName(path: string, sep: char): (name: string)
    ensures sep !in name
    ensures |name| <= |path| && name == path[|path| - |name|..]
    ensures sep !in path ==> name == path
    ensures sep in path ==> path[|path| - |name| - 1] == sep
  {
    path[LastIndexOf(path, sep) + 1..]
  }

  /** Joining a directory and a file name with the separator, then taking the default
      name, gives the file name back. */
  lemma DefaultNameOfJoin(dir: string, sep: char, file: string)
    requires sep !in file
    ensures DefaultName(dir + [sep] + file, sep) == file
  {
    var path := dir + [sep] + file;
    var i := LastIndexOf(path, sep);
    assert path[|dir|] == sep;
    assert forall j :: |dir| < j < |path| ==> path[j] == file[j - |dir| - 1];
    assert i == |dir|;
    assert path[i + 1..] == file;
  }
}

=== FILE: outcomes.dfy ===
/** Error taxonomy and failure-carrying result types shared by the storage model. */
module Outcomes {

  /** The exceptions the local provider raises:
      - NotFound: java.io.FileNotFoundException (missing root, source path or blob);
      - AlreadyExists: the IOException raised when a target already exists;
      - InvalidConfiguration: the IOException raised when the root is a file. */
  datatype StorageError = NotFound | AlreadyExists | InvalidConfiguration

  /** An optional argument, used to collapse the interface's overloads. */
  datatype Option<+T> = None | Some(value: T)

  /** The value of an operation that either returns or throws without side effects. */
  datatype Result<+T> = Ok(value: T) | Err(error: StorageError)

  /** How an operation that may leave side effects behind even when it throws ended. */
  datatype Outcome = Done | Failed(error: StorageError)
}

=== FILE: storage.dfy ===
/** The local-directory storage provider. The configured root directory is a map from
    storage key to blob bytes, paths outside the root are a second map from path to
    bytes, and every operation is a function from those maps to its result. The
    interface's overloads are collapsed: an optional target name, and a Progress
    argument that is either Silent or carries the stream's available() estimate. */
module LocalStorage {
  import opened Outcomes
  import opened Names
  import opened StreamCopy

  /** LocalStorageConfig: the root directory and whether saves may replace a blob. */
  datatype LocalStorageConfig = LocalStorageConfig(storagePath: string, overwrite: bool)

  /** What the filesystem holds at the configured root path. `Special` is anything else
      that exists without being a regular file: a device, a FIFO or a socket. */
  datatype PathKind = Missing | RegularFile | Directory | Special

  /** A constructed provider: a validated root and the overwrite flag. */
  datatype Provider = Provider(root: string, overwrite: bool)

  /** The contents of the root directory: storage key to blob bytes. */
  type Blobs = map<string, Bytes>

  /** Files outside the root (save sources, download destinations): path to bytes. */
  type Files = map<string, Bytes>

  /** Whether a transfer reports progress, and if so the total it reports. */
  datatype Progress = Silent | Notify(total: nat)

  /** What a transfer writes to its sink, and the progress callbacks it makes. */
  datatype Copied = Copied(bytes: Bytes, reports: seq<Report>)

  /** The result of a successful save: the new root contents and the callbacks made. */
  datatype Saved = Saved(blobs: Blobs, reports: seq<Report>)

  /** The result of downloadFile, which can leave a file behind even when it throws. */
  datatype Downloaded = Downloaded(files: Files, reports: seq<Report>, outcome: Outcome)

  /** The constructor: the root must exist and must not be a regular file. Nothing else
      is checked, so a special file is accepted as a root just like a directory. */
  function NewProvider(config: LocalStorageConfig, root: PathKind): (r: Result<Provider>)
    ensures r.Ok? <==> root != Missing && root != RegularFile
    ensures root == Missing ==> r == Err(NotFound)
    ensures root == RegularFile ==> r == Err(InvalidConfiguration)
    ensures r.Ok? ==> r.value.root == config.storagePath && r.value.overwrite == config.overwrite
  {
    match root
    case Missing => Err(NotFound)
    case RegularFile => Err(InvalidConfiguration)
    case _ => Ok(Provider(config.storagePath, config.overwrite))
  }

  /** Reference definition of one buffered transfer of `src`. */
  function Transfer(src: Source, progress: Progress): Copied {
    Copied(Contents(src), if progress.Notify? then ProgressReports(src, progress.total) else [])
  }

  /** downloadStream(inputStream, outputStream[, progress]): the stream-to-stream copy,
      which runs one of the two copy loops and computes exactly the reference transfer. */
  method CopyBetweenStreams(src: Source, progress: Progress) returns (c: Copied)
    requires WellFormed(src)
    ensures c == Transfer(src, progress)
    ensures c.bytes == Contents(src)
  {
    match progress {
      case Silent =>
        var written := CopyStream(src);
        c := Copied(written, []);
      case Notify(total) =>
        var written, reports := CopyStreamWithProgress(src, total);
        c := Copied(written, reports);
    }
  }

  /** fileExists: is there a blob under the name's key? Every key, the dot keys included,
      names an entry of the flat root (see FileExistsAsWritten for the code's resolution):
      an empty root holds nothing, and wherever the code's resolution names a child of the
      root the two agree. */
  function FileExists(blobs: Blobs, name: string): (present: bool)
    ensures blobs == map[] ==> !present
    ensures present ==> FileExistsAsWritten(blobs, name)
    ensures ResolveAsWritten(name).ChildOfRoot? ==> present == FileExistsAsWritten(blobs, name)
  {
    CleanupName(name) in blobs
  }

  /** `blobs'` is `blobs` with exactly the entry `key` set to `bytes`. */
  ghost predicate StoredExactly(blobs': Blobs, blobs: Blobs, key: string, bytes: Bytes) {
    && key in blobs' && blobs'[key] == bytes
    && (forall k :: k != key ==> (k in blobs' <==> k in blobs))
    && (forall k :: k != key && k in blobs ==> blobs'[k] == blobs[k])
  }

  /** saveStream(name, stream[, progress]). An existing blob is deleted first when the
      provider may overwrite; if one is still there the save throws; otherwise the
      stream is copied into a fresh blob under the key. */
  function SaveStream(p: Provider, blobs: Blobs, name: string, src: Source, progress: Progress): (r: Result<Saved>)
    ensures r.Err? <==> CleanupName(name) in blobs && !p.overwrite
    ensures r.Err? ==> r.error == AlreadyExists
    ensures r.Ok? ==> StoredExactly(r.value.blobs, blobs, CleanupName(name), Contents(src))
    ensures r.Ok? ==> FileExists(r.value.blobs, name)
    ensures r.Ok? ==> r.value.reports == Transfer(src, progress).reports
  {
    var key := CleanupName(name);
    var remaining := if key in blobs && p.overwrite then blobs - {key} else blobs;
    if key in remaining then Err(AlreadyExists)
    else
      var c := Transfer(src, progress);
      Ok(Saved(remaining[key := c.bytes], c.reports))
  }

  /** The name saveFile stores under: the one given, or the default derived from the path. */
  function TargetName(path: string, name: Option<string>, sep: char): string {
    match name
    case Some(n) => n
    case None => DefaultName(path, sep)
  }

  /** saveFile(path[, name][, progress]): the file at `path` must exist; its bytes are then
      saved as by saveStream. `sep` is the platform's separator character. */
  function SaveFile(p: Provider, blobs: Blobs, files: Files, path: string, name: Option<string>,
                    sep: char, progress: Progress): (r: Result<Saved>)
    ensures path !in files ==> r == Err(NotFound)
    ensures path in files ==>
      var key := CleanupName(TargetName(path, name, sep));
      && (r.Err? <==> key in blobs && !p.overwrite)
      && (r.Err? ==> r.error == AlreadyExists)
      && (r.Ok? ==> StoredExactly(r.value.blobs, blobs, key, files[path]))
      && (r.Ok? ==> r.value.reports == Transfer(FileSource(files[path]), progress).reports)
  {
    var target := TargetName(path, name, sep);
    if path !in files then Err(NotFound)
    else SaveStream(p, blobs, target, FileSource(files[path]), progress)
  }

  /** downloadStream(name, stream[, progress]): the blob under the name's key, copied to
      the sink; NotFound when there is none. */
  function DownloadStream(blobs: Blobs, name: string, progress: Progress): (r: Result<Copied>)
    ensures r.Err? <==> !FileExists(blobs, name)
    ensures r.Err? ==> r.error == NotFound
    ensures r.Ok? ==> r.value.bytes == blobs[CleanupName(name)]
    ensures r.Ok? && progress.Silent? ==> r.value.reports == []
  {
    if !FileExists(blobs, name) then Err(NotFound)
    else Ok(Transfer(FileSource(blobs[CleanupName(name)]), progress))
  }

  /** downloadFile(source, destination[, progress]). The destination is checked first and
      must not exist; it is then created empty before the source is looked up, so a
      missing source leaves an empty destination file behind. */
  function DownloadFile(blobs: Blobs, files: Files, source: string, destination: string,
                        progress: Progress): (r: Downloaded)
    ensures destination in files ==> r == Downloaded(files, [], Failed(AlreadyExists))
    ensures destination !in files && !FileExists(blobs, source) ==>
      r.outcome == Failed(NotFound) && r.files == files[destination := []]
    ensures destination !in files && FileExists(blobs, source) ==>
      r.outcome == Done && r.files == files[destination := blobs[CleanupName(source)]]
    ensures r.outcome.Failed? ==> r.reports == []
    ensures r.outcome == Done ==> r.reports == Transfer(FileSource(blobs[CleanupName(source)]), progress).reports
  {
    if destination in files then Downloaded(files, [], Failed(AlreadyExists))
    else
      var created := files[destination := []];
      match DownloadStream(blobs, source, progress)
      case Err(e) => Downloaded(created, [], Failed(e))
      case Ok(c) => Downloaded(created[destination := c.bytes], c.reports, Done)
  }

  /** A saved stream downloads back byte for byte, under the same name or any name with
      the same key. */
  lemma SaveThenDownload(p: Provider, blobs: Blobs, name: string, other: string, src: Source, progress: Progress)
    requires CleanupName(other) == CleanupName(name)
    requires SaveStream(p, blobs, name, src, Silent).Ok?
    ensures var saved := SaveStream(p, blobs, name, src, Silent).value.blobs;
      && FileExists(saved, other)
      && DownloadStream(saved, other, progress).Ok?
      && DownloadStream(saved, other, progress).value.bytes == Contents(src)
  {
  }

  /** Saving twice under one key: without overwrite the second save throws and changes
      nothing; with overwrite the blob holds only the second payload. */
  lemma SaveTwice(p: Provider, blobs: Blobs, first: string, second: string, src1: Source, src2: Source)
    requires CleanupName(first) == CleanupName(second)
    requires SaveStream(p, blobs, first, src1, Silent).Ok?
    ensures var once := SaveStream(p, blobs, first, src1, Silent).value.blobs;
      var twice := SaveStream(p, once, second, src2, Silent);
      && (!p.overwrite ==> twice == Err(AlreadyExists))
      && (p.overwrite ==> twice.Ok? && twice.value.blobs == blobs[CleanupName(first) := Contents(src2)])
  {
  }

  /** saveFile(path) with no name stores the file under the key of the path's last
      segment, and downloading that segment's name to a fresh destination reproduces the
      file's bytes there. */
  lemma SaveFileThenDownloadFile(p: Provider, blobs: Blobs, files: Files, dir: string, sep: char,
                                 file: string, destination: string)
    requires sep !in file
    requires dir + [sep] + file in files
    requires destination !in files
    requires SaveFile(p, blobs, files, dir + [sep] + file, None, sep, Silent).Ok?
    ensures var saved := SaveFile(p, blobs, files, dir + [sep] + file, None, sep, Silent).value.blobs;
      var r := DownloadFile(saved, files, file, destination, Silent);
      && r.outcome == Done
      && r.files[destination] == files[dir + [sep] + file]
  {
    DefaultNameOfJoin(dir, sep, file);
  }

  /** A save with a progress callback reports once per run of the source, with
      strictly increasing counts that end at the number of bytes stored, always with
      the same total, and never for an empty source. */
  lemma SaveStreamProgress(p: Provider, blobs: Blobs, name: string, src: Source, total: nat)
    requires WellFormed(src)
    requires SaveStream(p, blobs, name, src, Notify(total)).Ok?
    ensures var saved := SaveStream(p, blobs, name, src, Notify(total)).value;
      var rs := saved.reports;
      && |rs| == |src.chunks|
      && StrictlyIncreasing(rs)
      && (forall k :: 0 <= k < |rs| ==> rs[k].total == total)
      && (|rs| > 0 ==> rs[|rs| - 1].done == |saved.blobs[CleanupName(name)]|)
      && (rs == [] <==> saved.blobs[CleanupName(name)] == [])
  {
    ProgressReportsShape(src, total);
  }

  /** saveFile with a progress callback reads the file in full 4096-byte runs: one report
      per run, strictly increasing, ending at the file's size, none for an empty file. */
  lemma SaveFileProgress(p: Provider, blobs: Blobs, files: Files, path: string, name: Option<string>,
                         sep: char, total: nat)
    requires SaveFile(p, blobs, files, path, name, sep, Notify(total)).Ok?
    ensures path in files
    ensures var rs := SaveFile(p, blobs, files, path, name, sep, Notify(total)).value.reports;
      var data := files[path];
      && |rs| == (|data| + BufferSize - 1) / BufferSize
      && StrictlyIncreasing(rs)
      && (forall k :: 0 <= k < |rs| ==> rs[k].total == total)
      && (|rs| > 0 ==> rs[|rs| - 1].done == |data|)
      && (rs == [] <==> data == [])
  {
    ProgressReportsShape(FileSource(files[path]), total);
  }

  /** A download with a progress callback reads the blob in full 4096-byte runs: one
      report per run, strictly increasing, ending at the blob's size. */
  lemma DownloadStreamProgress(blobs: Blobs, name: string, total: nat)
    requires FileExists(blobs, name)
    ensures var rs := DownloadStream(blobs, name, Notify(total)).value.reports;
      var blob := blobs[CleanupName(name)];
      && |rs| == (|blob| + BufferSize - 1) / BufferSize
      && StrictlyIncreasing(rs)
      && (forall k :: 0 <= k < |rs| ==> rs[k].total == total)
      && (|rs| > 0 ==> rs[|rs| - 1].done == |blob|)
      && (rs == [] <==> blob == [])
  {
    ProgressReportsShape(FileSource(blobs[CleanupName(name)]), total);
  }

  /** Where java.io.File(root, key) points, as the code builds it: an empty key or "."
      names the root itself and ".." its parent, both existing directories. */
  datatype Location = RootItself | ParentOfRoot | ChildOfRoot(key: string)

  /** The resolution file(name) performs as written. */
  function ResolveAsWritten(name: string): (loc: Location)
    ensures loc.ChildOfRoot? ==> loc.key == CleanupName(name) && loc.key !in {"", ".", ".."}
    ensures !loc.ChildOfRoot? ==> CleanupName(name) in {"", ".", ".."}
  {
    var key := CleanupName(name);
    if key == "" || key == "." then RootItself
    else if key == ".." then ParentOfRoot
    else ChildOfRoot(key)
  }

  /** fileExists as written: File.exists() on the resolved location. */
  function FileExistsAsWritten(blobs: Blobs, name: string): (present: bool)
    ensures CleanupName(name) in {"", ".", ".."} ==> present
    ensures CleanupName(name) !in {"", ".", ".."} ==> (present <==> CleanupName(name) in blobs)
  {
    match ResolveAsWritten(name)
    case ChildOfRoot(key) => key in blobs
    case _ => true
  }

  /** As written, names made only of dots and disallowed characters escape the flat
      namespace: fileExists reports them present in an empty root, and ".." reaches the
      parent of the root. */
  lemma DotKeysEscapeRoot()
    ensures ResolveAsWritten("..") == ParentOfRoot
    ensures ResolveAsWritten("../") == ParentOfRoot
    ensures ResolveAsWritten("!?") == RootItself
    ensures FileExistsAsWritten(map[], "..") && FileExistsAsWritten(map[], "")
    ensures !FileExists(map[], "..") && !FileExists(map[], "")
  {
  }

  /** `path` without its trailing run of separators, as java.io.File drops it. */
  function TrimSeparators(path: string, sep: char): (trimmed: string)
    ensures |trimmed| <= |path| && trimmed == path[..|trimmed|]
    ensures trimmed == [] || trimmed[|trimmed| - 1] != sep
    ensures forall i :: |trimmed| <= i < |path| ==> path[i] == sep
    decreases |path|
  {
    if |path| > 0 && path[|path| - 1] == sep then TrimSeparators(path[..|path| - 1], sep)
    else path
  }

  /** Whether File.delete() can remove the configured root path once it is empty. The
      path is read as java.io.File normalises it: trailing separators are dropped, and a
      path of separators only is "/". rmdir refuses "/" (busy) and a path whose last
      segment is "." or ".." (invalid argument), so for such roots the root survives the
      delete. Doubled separators inside the path do not change its last segment. */
  predicate RootRemovable(root: string) {
    var trimmed := TrimSeparators(root, '/');
    var last := DefaultName(trimmed, '/');
    trimmed != "" && last != "." && last != ".."
  }

  /** What the code's saveStream produces: a blob stored in the root, or, for the empty
      key, the root directory itself replaced by a regular file holding the stream. */
  datatype WrittenSave = Stored(saved: Saved) | RootReplaced(bytes: Bytes, reports: seq<Report>)

  /** saveStream as written, on the location file(name) resolves to. A child of the root
      behaves as a blob. The root's parent always exists and cannot be deleted (it holds
      the root), nor can the root under the key "."; so both refuse the save. The root
      under the key "" is the root path itself: with overwrite on, nothing stored and a
      root path rmdir can remove (RootRemovable), delete() removes the empty directory
      and the stream is written to a new file at the root's path. */
  function SaveStreamAsWritten(p: Provider, blobs: Blobs, name: string, src: Source, progress: Progress): (r: Result<WrittenSave>)
    ensures r.Err? ==> r.error == AlreadyExists
    ensures !p.overwrite && !ResolveAsWritten(name).ChildOfRoot? ==> r == Err(AlreadyExists)
  {
    var c := Transfer(src, progress);
    match ResolveAsWritten(name)
    case ChildOfRoot(key) =>
      var remaining := if key in blobs && p.overwrite then blobs - {key} else blobs;
      if key in remaining then Err(AlreadyExists)
      else Ok(Stored(Saved(remaining[key := c.bytes], c.reports)))
    case RootItself =>
      if p.overwrite && blobs == map[] && CleanupName(name) == "" && RootRemovable(p.root) then Ok(RootReplaced(c.bytes, c.reports))
      else Err(AlreadyExists)
    case ParentOfRoot => Err(AlreadyExists)
  }

  /** downloadStream(name, ...) as written: fileExists as written, then the resolved
      location opened for reading; opening the root or its parent, both directories,
      throws FileNotFoundException. */
  function DownloadStreamAsWritten(blobs: Blobs, name: string, progress: Progress): (r: Result<Copied>)
    ensures !ResolveAsWritten(name).ChildOfRoot? ==> r == Err(NotFound)
  {
    if !FileExistsAsWritten(blobs, name) then Err(NotFound)
    else match ResolveAsWritten(name)
      case ChildOfRoot(key) => Ok(Transfer(FileSource(blobs[key]), progress))
      case _ => Err(NotFound)
  }

  /** As written, a name whose key is "", "." or ".." can never be saved without
      overwrite, even into an empty root, where the model's save succeeds; with overwrite
      the only save that goes through replaces the whole root with a file, and only when
      the root path itself can be removed. */
  lemma DotKeysRefuseSave(p: Provider, blobs: Blobs, name: string, src: Source, progress: Progress)
    requires !ResolveAsWritten(name).ChildOfRoot?
    ensures var r := SaveStreamAsWritten(p, blobs, name, src, progress);
      && (r.Ok? <==> p.overwrite && blobs == map[] && CleanupName(name) == "" && RootRemovable(p.root))
      && (r.Err? ==> r.error == AlreadyExists)
      && (r.Ok? ==> r.value == RootReplaced(Contents(src), Transfer(src, progress).reports))
    ensures SaveStream(p, map[], name, src, progress).Ok?
  {
  }

  /** Trailing separators do not change whether a root can be removed. */
  lemma RootRemovableTrailing(root: string)
    ensures RootRemovable(root + "/") == RootRemovable(root)
  {
    assert (root + "/")[..|root|] == root;
  }

  /** A path with no separator is its own last segment. */
  lemma RootRemovableSingle(root: string)
    requires '/' !in root
    ensures RootRemovable(root) <==> root != "" && root != "." && root != ".."
  {
  }

  /** The working directory "." cannot be removed, written with or without a trailing
      separator. */
  lemma RootDot()
    ensures !RootRemovable(".") && !RootRemovable("./")
  {
    RootRemovableSingle(".");
    RootRemovableTrailing(".");
    assert "." + "/" == "./";
  }

  /** The filesystem root cannot be removed, however many separators spell it. */
  lemma RootSlash()
    ensures !RootRemovable("/") && !RootRemovable("//")
  {
    assert "/"[..0] == [] && "//"[..1] == "/";
    assert TrimSeparators("/", '/') == [];
  }

  /** A root whose last segment is ".." cannot be removed, with or without a trailing
      separator. */
  lemma RootParent(dir: string)
    ensures !RootRemovable(dir + "/..") && !RootRemovable(dir + "/../")
  {
    var path := dir + "/..";
    assert path[|path| - 1] == '.';
    assert TrimSeparators(path, '/') == path;
    DefaultNameOfJoin(dir, '/', "..");
    assert dir + ['/'] + ".." == path;
    RootRemovableTrailing(path);
    assert path + "/" == dir + "/../";
  }

  /** An ordinary directory can be removed once empty, trailing separator or not. */
  lemma RootData()
    ensures RootRemovable("data/")
  {
    RootRemovableSingle("data");
    RootRemovableTrailing("data");
    assert "data" + "/" == "data/";
  }

  /** A root configured as "." (the working directory) cannot be removed, so as written
      every save under a dot key fails there, with overwrite on and an empty root too. */
  lemma DotRootRefusesDotKeys(blobs: Blobs, name: string, src: Source, progress: Progress)
    requires !ResolveAsWritten(name).ChildOfRoot?
    ensures SaveStreamAsWritten(Provider(".", true), blobs, name, src, progress) == Err(AlreadyExists)
    ensures SaveStreamAsWritten(Provider("./", true), blobs, name, src, progress) == Err(AlreadyExists)
  {
    RootDot();
  }

  /** A path ending in the separator reaches the empty key through saveFile(path): the
      default name is empty, and so, as written, is the target the root itself. */
  lemma SaveFileTrailingSeparator(dir: string, sep: char)
    ensures TargetName(dir + [sep], None, sep) == ""
    ensures ResolveAsWritten(TargetName(dir + [sep], None, sep)) == RootItself
  {
  }

  /** The corrected fileExists: where the code resolves the name to a child of the root it
      agrees with the code, it never reports a name the code would not, and an empty
      root holds nothing, so downloading any name from it throws NotFound. */
  lemma CorrectedFileExists(blobs: Blobs, name: string, progress: Progress)
    ensures ResolveAsWritten(name).ChildOfRoot? ==> FileExists(blobs, name) == FileExistsAsWritten(blobs, name)
    ensures FileExists(blobs, name) ==> FileExistsAsWritten(blobs, name)
    ensures !FileExists(map[], name)
    ensures DownloadStream(map[], name, progress) == Err(NotFound)
    ensures ResolveAsWritten(name).ChildOfRoot? ==> DownloadStream(blobs, name, progress) == DownloadStreamAsWritten(blobs, name, progress)
  {
  }

  /** The corrected saveStream agrees with the code wherever the code resolves the name
      to a child of the root; the dot keys are stored as ordinary blobs. */
  lemma CorrectedSaveStream(p: Provider, blobs: Blobs, name: string, src: Source, progress: Progress)
    ensures ResolveAsWritten(name).ChildOfRoot? ==>
      match SaveStream(p, blobs, name, src, progress)
      case Ok(saved) => SaveStreamAsWritten(p, blobs, name, src, progress) == Ok(Stored(saved))
      case Err(e) => SaveStreamAsWritten(p, blobs, name, src, progress) == Err(e)
    ensures !p.overwrite ==> (SaveStream(p, blobs, name, src, progress).Ok? <==> !FileExists(blobs, name))
  {
  }
}
